=== FILE: README.md ===
# FrameAR selection and transform ledger, modelled in Dafny

FrameAR places pictures as flat frames on walls in an augmented-reality camera
view. `CustomARView` holds the only real logic in the app. It is a tap-driven
state machine that selects one frame at a time. It lifts the selected frame
off the wall and shows a modal with scale and rotation sliders. It keeps a
ledger per frame of original and pending translation, scale and angle.

This project models that state machine as pure functions over an immutable
state. It also models the geometry used to place frames: `pixelsToMeters`,
`convertPixelToPoint`, the four-slot template of `addEntities`, and the
no-hit skip of `addEntity`.

Modules, following the source:

- `Ledger` (`ledger.dfy`) holds the `entityInfo` entry as a typed `Record`. It
  defines record creation and the writes that deselection, selection, the
  scale slider and the rotation slider make, with the slider angle
  conversions.
- `Selection` (`selection.dfy`) covers `handleTap` (an entity hit or empty
  space), `deselectEntity`, `scaleEntity`, `rotateEntity`, and the
  animation-completion subscription. The state holds the ledger, `isTapped`,
  `isSwitching`, `selectedEntity` and the published `Settings` (modal flag,
  selected name, slider scale, slider angle). It also holds the animation
  handles issued so far and the handles whose completion the view subscribed
  to.
- `SelectionLemmas` (`selection_lemmas.dfy`) states what each branch does.
- `Traces` (`traces.dfy`) delivers events in order and proves properties of
  every trace.
- `ImageHandler` (`image_handler.dfy`) covers `convertPixelToPoint`.
- `Placement` (`placement.dfy`) covers `pixelsToMeters`, the template, pin
  centres, `addEntity`, `addEntities` and `removeAllAnchors`. It also holds
  the entity registry (`entities`, `entityImages`, anchors in the scene).
- `Commands` (`commands.dfy`) holds the `ARAction` command set and how the
  view dispatches it.

The scene is abstracted away:

- A tap carries the entity the hit test resolved (name and live pose). It
  also carries the live position of the entity the view holds as selected,
  read when that entity is put down for another one; a re-tap of the
  selected entity reads the hit's own position.
- A deselect command carries the scene as a map from names to live
  positions. The source looks the entity up by `Settings.selectedEntityName`.
- Every `move(to:)`, and every direct write of `scale` or `orientation`, is
  returned as an `Effect`. Each move gets a fresh playback handle.
- Only the move that ends an entity tap
  (FrameAR/AR/CustomARView.swift:420) is subscribed to. An
  `AnimationCompleted(handle)` event clears `isSwitching` only for such a
  handle.
- Entity identity is the entity's UUID name. The source compares `.id` at
  line 362, and names are unique per entity.

The source's force-unwraps become the state invariant `Selection.Valid`:

- a selected entity has a record;
- `isTapped` and `isSwitching` each imply a selection;
- the published name is the selected entity's name, or `""` before any
  selection;
- every record's pending scale is its original scale times the slider
  factor;
- every subscribed handle was issued before, so it is below the next fresh
  handle.

Every operation requires `Valid` and preserves it.

The model follows the code as written; in particular:

- `selectedEntity` is never cleared. Tapping empty space, re-tapping the
  selected entity and deselecting only reset `isTapped`, so later slider
  commands still act on that entity (`Traces.SelectionNeverCleared`).
- The completion that ends a switch belongs to the incoming entity's move,
  not the outgoing one's (`SelectionLemmas.SwitchEndsOnIncomingCompletion`).
- The lift is the live `position.y + 0.2`, not `origTranslateY + 0.2`. The
  latter is commented out at line 395.
- Slider commands are ignored while switching or when `selectedEntity` is
  nil. Nothing checks which entity they target.
- Tapping empty space does not reset the pending y. Only the move target
  uses `origTranslateY`.

## Model

| member | source | states |
|---|---|---|
| Ledger.Fresh | FrameAR/AR/CustomARView.swift:337-353 | a newly created record starts with its pending scale equal to the original scale times factor 1.0 |
| Ledger.EnsureRecord | FrameAR/AR/CustomARView.swift:336-354 | the first tap records the live position, scale and angle as both original and pending values with factor 1.0; an existing record and every other record are left untouched |
| Ledger.EnsureRecordIdempotent | FrameAR/AR/CustomARView.swift:336-354 | creating a record a second time, from any pose, changes nothing |
| Ledger.SliderToRadians | FrameAR/AR/CustomARView.swift:220 | the stored angle converts back to the slider degrees it came from, with the sign flipped |
| Ledger.ApplyScale | FrameAR/AR/CustomARView.swift:200-213 | the pending scale becomes the original scale times the factor and the factor is stored; originals, translation and angle are unchanged |
| Ledger.ApplyRotation | FrameAR/AR/CustomARView.swift:220-225 | the pending angle is the one the slider shows back as the given degrees; nothing else changes |
| Ledger.ScaleOneRestores | FrameAR/AR/CustomARView.swift:200-213 | a factor of 1.0 restores the original scale exactly |
| Ledger.ScaleLastWins | FrameAR/AR/CustomARView.swift:200-213 | successive scale commands do not compound: only the last factor matters |
| Ledger.AngleRoundTrips | FrameAR/AR/CustomARView.swift:414-416 | slider degrees to radians and back, and radians to slider degrees and back, are both identities |
| Ledger.RotationSign | FrameAR/AR/CustomARView.swift:219-220 | +90 slider degrees is -pi/2 radians and -90 is +pi/2 |
| Selection.SliderValues | FrameAR/AR/CustomARView.swift:399-401 | the published slider scale is the record's factor and the published angle converts back to the record's angle |
| Selection.EntityTap | FrameAR/AR/CustomARView.swift:334-438 | after an entity tap the hit entity is selected and has a record, original fields are kept, an ongoing switch is not ended, the invariant holds, and the last effect is a subscribed move of the hit entity |
| Selection.EmptyTap | FrameAR/AR/CustomARView.swift:439-463 | with nothing selected this is a no-op; otherwise the modal is hidden and `isTapped` cleared while the selection and `isSwitching` are kept; its put-down move is never subscribed to |
| Selection.Tap | FrameAR/AR/CustomARView.swift:328-464 | no tap breaks the invariant, rewrites an original field, or ends a switch |
| Selection.Deselect | FrameAR/AR/CustomARView.swift:172-195 | a no-op when no scene entity has the published name; otherwise the modal is hidden and `isTapped` cleared, with selection and `isSwitching` kept; its put-down move is never subscribed to |
| Selection.Scale | FrameAR/AR/CustomARView.swift:197-215 | ignored while switching or with nothing selected; otherwise the selected record's pending scale is original times factor, its factor is stored, the live entity's scale is set to that pending scale, and no other record or state field changes |
| Selection.Rotate | FrameAR/AR/CustomARView.swift:217-227 | ignored while switching or with nothing selected; otherwise the selected record's angle shows back as the given degrees, the live entity's orientation is set to that angle, its other fields are kept, and no other record or state field changes |
| Selection.Launch | FrameAR/AR/CustomARView.swift:419-437 | the final move goes to the selected entity's pending transform under a handle never subscribed to before, which becomes the only new subscription; nothing else in the state changes |
| Selection.AnimationCompleted | FrameAR/AR/CustomARView.swift:432-437 | completion of a subscribed move ends the switch; any other completion changes nothing |
| SelectionLemmas.FirstTapCreatesRecord | FrameAR/AR/CustomARView.swift:336-354 | the first tap records the live pose as originals, keeps scale and angle pending at the live values with factor 1.0, and lifts the frame by 0.2 |
| SelectionLemmas.LaterTapKeepsOriginals | FrameAR/AR/CustomARView.swift:336-354 | a tap on an entity that has a record never overwrites its original fields |
| SelectionLemmas.TapWhenNothingTapped | FrameAR/AR/CustomARView.swift:404-417 | with nothing tapped, a tap selects the entity, sets `isTapped`, lifts it from its live position, shows the modal with the record's slider values and moves only it; a known entity's pending scale, factor and angle are reused, no other record changes, and its move is the only new subscription |
| SelectionLemmas.RetapSelected | FrameAR/AR/CustomARView.swift:360-370 | re-tapping the selected entity hides the modal, clears `isTapped`, restores its resting height with the x/z where the hit found it, moves it there under the only new subscription, and keeps the selection, `isSwitching` and the slider values |
| SelectionLemmas.SwitchToOtherEntity | FrameAR/AR/CustomARView.swift:371-402 | tapping another entity puts the old one down with nothing else changed, sets `isSwitching`, keeps `isTapped`, selects and lifts the new one reusing its stored scale, factor and angle, leaves every third record alone, and subscribes only to the new entity's move |
| SelectionLemmas.SwitchEndsOnIncomingCompletion | FrameAR/AR/CustomARView.swift:378-437 | during a switch the outgoing entity's completion leaves `isSwitching` set, and the incoming entity's completion clears it |
| SelectionLemmas.EmptyTapPutsDown | FrameAR/AR/CustomARView.swift:441-461 | tapping empty space captures only the live x/z of the selected record, hides the modal and moves it to its original y; no other record changes |
| SelectionLemmas.DeselectPutsDown | FrameAR/AR/CustomARView.swift:172-194 | a deselect that finds the entity restores its resting height with the found entity's x/z, hides the modal and moves it there |
| SelectionLemmas.ScaleOneRestoresSelection | FrameAR/AR/CustomARView.swift:197-214 | an active scale command of 1.0 restores the selected entity's original scale |
| SelectionLemmas.SliderEchoHarmless | FrameAR/EntityModalView.swift:56-89 | after a selection, the sliders echoing the published scale and angle back as commands leave the ledger unchanged |
| Traces.Apply | FrameAR/AR/CustomARView.swift:172-464 | every event keeps the invariant and the originals, adds records only for tapped entities, never clears a selection, ends a switch only by a subscribed completion, and keeps the modal flag equal to `isTapped`; each event reaches its handler: an entity tap selects the hit entity, an empty-space tap and a deselect that finds the entity clear `isTapped`, a deselect that finds nothing changes nothing, a subscribed completion ends the switch, an active scale event stores its factor and an active rotate event its angle on the selection |
| Traces.Run | FrameAR/AR/CustomARView.swift:14-17 | the force-unwrap invariant holds after any sequence of events |
| Traces.InitValid | FrameAR/AR/CustomARView.swift:14-17 | the initial state satisfies the invariant, with the modal hidden and nothing tapped |
| Traces.RunLedgerKeys | FrameAR/AR/CustomARView.swift:336-354 | after a trace, the ledger's keys are the earlier ones plus exactly the tapped entities |
| Traces.RecordIffTapped | FrameAR/AR/CustomARView.swift:336-354 | from the initial state, an entity has a record if and only if it has been tapped |
| Traces.RunKeepsOriginals | FrameAR/AR/CustomARView.swift:336-354 | no sequence of events rewrites any record's original fields |
| Traces.SelectionNeverCleared | FrameAR/AR/CustomARView.swift:439-461 | once an entity is held as selected, some entity stays held as selected after any events |
| Traces.SwitchingIgnoresSliders | FrameAR/AR/CustomARView.swift:197-227 | while switching, any sequence of scale and rotate commands leaves the whole state unchanged |
| Traces.SwitchEndsOnlyByCompletion | FrameAR/AR/CustomARView.swift:390-437 | if a switch is over after a trace, the trace contains an animation completion |
| Traces.ModalFollowsTap | FrameAR/AR/CustomARView.swift:358-364 | along any trace the modal is shown exactly while `isTapped` holds |
| ImageHandler.ConvertPixelToPoint | FrameAR/Image/ImageHandler.swift:36-56 | x and width scale by screen width over image width, y and height by screen height over image height, the pixel density cancels, and the result has exactly the four rectangle keys |
| ImageHandler.DensityCancels | FrameAR/Image/ImageHandler.swift:38-48 | scaling by screen pixels over image size and then dividing by the density is scaling by screen points over image size |
| ImageHandler.RoundTrip | FrameAR/Image/ImageHandler.swift:42-55 | mapping a rectangle to points and back gives it back |
| ImageHandler.EdgesMap | FrameAR/Image/ImageHandler.swift:42-48 | right and bottom edges map to the mapped right and bottom edges |
| ImageHandler.FullFrameMapsToScreen | FrameAR/Image/ImageHandler.swift:42-55 | the whole image rectangle maps to the whole screen |
| Placement.PixelsToMeters | FrameAR/AR/CustomARView.swift:162-170 | each axis is converted on its own and converts back to its pixel count; order between the axes is preserved |
| Placement.MetersLinear | FrameAR/AR/CustomARView.swift:162-170 | the conversion preserves sums and multiples and maps 0 to 0 |
| Placement.MetersMonotone | FrameAR/AR/CustomARView.swift:162-170 | the conversion is strictly monotone |
| Placement.MetersRoundTrip | FrameAR/AR/CustomARView.swift:162-170 | pixels to metres and back, and metres to pixels and back, are identities |
| Placement.ScreenCentre | FrameAR/AR/CustomARView.swift:41-45 | a single image is pinned at the middle of the screen in points |
| Placement.PinLocation | FrameAR/AR/CustomARView.swift:115-121 | image n is pinned at the centre of template slot n, mapped to screen points |
| Placement.PinsOnScreen | FrameAR/AR/CustomARView.swift:88-121 | every template pin lies strictly inside the screen |
| Placement.AddEntity | FrameAR/AR/CustomARView.swift:70-82 | a raycast miss or a failed save adds nothing; otherwise exactly one frame is appended, named and anchored at the hit, sized from the image's pixels, and registered with its file |
| Placement.Successes | FrameAR/AR/CustomARView.swift:115-122 | the images a bulk add places are exactly those whose pin raycast hits and whose save gives a path, each once, in increasing order |
| Placement.AddEntitiesFrom | FrameAR/AR/CustomARView.swift:115-122 | the loop appends one frame per successful image and keeps earlier entities |
| Placement.AddEntityForSlot | FrameAR/AR/CustomARView.swift:70-82 | a successful image appends exactly its own frame, any other image leaves the registry unchanged |
| Placement.SlotFrameFromSlot | FrameAR/AR/CustomARView.swift:70-82 | the frame of image n carries its name and saved path, is sized from its pixels, and hangs at the hit of slot n's pin |
| Placement.FramesOfAt | FrameAR/AR/CustomARView.swift:115-121 | the k-th frame for a list of successful images belongs to the k-th image in the list |
| Placement.AddedFramesStep | FrameAR/AR/CustomARView.swift:115-121 | the frames appended from image n on are image n's frame, if it succeeds, followed by those from n+1 on |
| Placement.AddEntitiesFromAppends | FrameAR/AR/CustomARView.swift:115-122 | the entity list after a bulk add is the earlier list followed by exactly the frames of the successful images in image order |
| Placement.AddedFramesComeFromSlots | FrameAR/AR/CustomARView.swift:115-121 | the k-th appended frame is the frame of the k-th successful image: its name, saved path, pixel size and pin-raycast anchor, so frames match images one-to-one and in order |
| Placement.AddEntities | FrameAR/AR/CustomARView.swift:84-123 | a bulk add of at most four images keeps existing entities and adds at most one frame per image |
| Placement.AllMissesAddNothing | FrameAR/AR/CustomARView.swift:70-82 | if no raycast hits, a bulk add changes nothing |
| Placement.RemoveAllAnchors | FrameAR/AR/CustomARView.swift:48-49 | removing all anchors empties the scene but keeps the entity list and the image map |
| Commands.SceneOf | FrameAR/AR/CustomARView.swift:173 | a lookup by name sees only entities whose anchor is in the scene, at their live position |
| Commands.Dispatch | FrameAR/AR/CustomARView.swift:40-60 | placement commands leave the view state alone, slider and modal commands leave the registry alone, and every command keeps the invariant, the ledger keys and the originals; each command reaches its handler: a deselect that finds the anchored entity clears `isTapped` and one that cannot find it changes nothing, a single add whose raycast hits and save succeeds appends one anchored frame, a bulk add appends one frame per successful image, an active scale command stores its factor and an active rotate command its angle on the selection |
| Commands.CommandsBeforeSelectionIgnored | FrameAR/AR/CustomARView.swift:172-227 | from the initial app state, scale, rotate and deselect commands change nothing, because nothing is selected and no entity has the empty name |
| Commands.DeselectAfterRemoveAllIsIgnored | FrameAR/AR/CustomARView.swift:172-174 | after all anchors are removed, a deselect finds nothing and leaves the view state unchanged |
| Commands.SingleAddMissAddsNothing | FrameAR/AR/CustomARView.swift:70-81 | a single add whose raycast from the screen centre misses changes nothing |

## Left out

- ARKit and RealityKit calls are not modelled. This covers raycasting, anchor creation, collision shapes, gesture installation, animation playback and `scene.findEntity`. Their results are event inputs (hit, live positions, scene map, raycast function) and their requests are `Effect`s.
- The nil-sender guard of `handleTap` (FrameAR/AR/CustomARView.swift:330) is left out: a gesture recognizer always supplies itself.
- `hangFrames` is left out. It only reloads textures and materials, and the `isHanging` setting and `.hangFrames` action it uses exist in neither FrameAR/Settings.swift nor FrameAR/AR/ARAction.swift.
- `convertImageToWorldSpace` and `createPoint` only spawn debug spheres. Dispatching `ConvertImageToWorldSpace` leaves the modelled state unchanged.
- `saveImage` and `deleteImages` do file I/O. The result of saving is an input. The texture fallback in `createPlane` is rendering and is left out. Its registry bookkeeping is modelled.
- UUID generation is randomness, so fresh entity names are inputs.
- The SwiftUI views are left out. The slider bindings write `Settings.scale` and `Settings.angle` before sending a command. The modal can also hide itself on a background tap (FrameAR/EntityModalView.swift:21) without clearing `isTapped`. `ModalFollowsTap` holds only for the events modelled here.
- Combine subscription storage is left out. Only the effect "a subscribed completion clears `isSwitching`" is modelled. Subscriptions are never cancelled, so the subscribed handle set only grows.
- Float and Double rounding are left out, including the `Float(cm/dpi)` cast. All arithmetic is over `real`, and an orientation is its angle about the y axis.
- ImageHandler.ConvertPixelToPoint: requires non-zero image sizes and a positive screen scale. With Float the source would return infinities or NaN there, which reals cannot express.
- Placement.PinLocation: requires a positive screen scale, as `UIScreen.main.scale` always is, for the same reason.
- Commands.Dispatch: requires one save result and one name per image as inputs. A bulk add of more than four images indexes past the template and crashes, so the model excludes it.

=== FILE: commands.dfy ===
/**
  The `ARAction` command set and the view's dispatch of it (the action-stream
  subscription of CustomARView). Slider and modal commands go to the
  selection state machine; placement commands go to the entity registry.
 */
module Commands {
  import opened Optional
  import opened Ledger
  import opened ImageHandler
  import opened Selection
  import Placement

  datatype ARAction =
    | AddEntity(image: Placement.Image)
    | AddEntities(images: seq<Placement.Image>)
    | RemoveAllAnchors
    | ConvertImageToWorldSpace
    | DeselectEntity
    | ScaleEntity(scale: real)
    | RotateEntity(angle: real)

  /**
    What the outside world supplies while one command is handled: the main
    screen, the raycast against vertical planes, the results of saving each
    image, the fresh entity names, and the live positions of entities.
   */
  datatype Env = Env(
    screen: Screen,
    raycast: Placement.Point -> Option<Vec3>,
    saved: seq<Option<string>>,
    names: seq<Name>,
    live: map<Name, Vec3>)

  datatype App = App(view: State, registry: Placement.Registry)

  const InitApp := App(Init, Placement.EmptyRegistry)

  /**
    What a command needs of its inputs: one save result and name per image,
    and, for a bulk add, no more images than template slots.
   */
  predicate Admissible(a: ARAction, env: Env) {
    && env.screen.scale > 0.0
    && (a.AddEntity? ==> |env.saved| == 1 && |env.names| == 1)
    && (a.AddEntities? ==> |a.images| <= |Placement.Template| && |env.saved| == |a.images| && |env.names| == |a.images|)
  }

  /** The entities `scene.findEntity(named:)` can see: those whose anchor is in the scene. */
  function SceneOf(live: map<Name, Vec3>, anchored: set<Name>): (scene: map<Name, Vec3>)
    ensures scene.Keys == live.Keys * anchored
    ensures forall n :: n in scene ==> scene[n] == live[n]
  {
    map n | n in live && n in anchored :: live[n]
  }

  function Dispatch(app: App, a: ARAction, env: Env): (r: App)
    requires Valid(app.view) && Admissible(a, env)
    ensures Valid(r.view)
    ensures (a.AddEntity? || a.AddEntities? || a.RemoveAllAnchors? || a.ConvertImageToWorldSpace?) ==> r.view == app.view
    ensures (a.DeselectEntity? || a.ScaleEntity? || a.RotateEntity?) ==> r.registry == app.registry
    ensures r.view.ledger.Keys == app.view.ledger.Keys
    ensures OriginalsKept(app.view.ledger, r.view.ledger)
    ensures a.DeselectEntity? ==>
              var name := app.view.settings.selectedEntityName;
              && (name in env.live && name in app.registry.anchored ==> !r.view.isTapped)
              && (name !in app.registry.anchored ==> r.view == app.view)
    ensures a.AddEntity? && env.raycast(Placement.ScreenCentre(env.screen)).Some? && env.saved[0].Some? ==>
              && |r.registry.entities| == |app.registry.entities| + 1
              && env.names[0] in r.registry.anchored
    ensures a.AddEntities? ==>
              |r.registry.entities|
                == |app.registry.entities| + |Placement.Successes(a.images, env.screen, env.raycast, env.saved, 0)|
    ensures a.ScaleEntity? && !app.view.isSwitching && app.view.selected.Some? ==>
              r.view.ledger[app.view.selected.value].scale == a.scale
    ensures a.RotateEntity? && !app.view.isSwitching && app.view.selected.Some? ==>
              RadiansToSlider(r.view.ledger[app.view.selected.value].newAngle) == a.angle
  {
    match a
    case AddEntity(image) =>
      var pin := Placement.ScreenCentre(env.screen);
      app.(registry := Placement.AddEntity(app.registry, image, pin, env.raycast, env.saved[0], env.names[0]))
    case AddEntities(images) =>
      app.(registry := Placement.AddEntities(app.registry, images, env.screen, env.raycast, env.saved, env.names))
    case RemoveAllAnchors =>
      app.(registry := Placement.RemoveAllAnchors(app.registry))
    case ConvertImageToWorldSpace =>
      app
    case DeselectEntity =>
      app.(view := Deselect(app.view, SceneOf(env.live, app.registry.anchored)).state)
    case ScaleEntity(scale) =>
      app.(view := Scale(app.view, scale).state)
    case RotateEntity(angle) =>
      app.(view := Rotate(app.view, angle).state)
  }

  /**
    After `removeAllAnchors` nothing can be found by name, so a deselect no
    longer puts the selected entity down: the view keeps its state, with
    `isTapped` and the modal as they were.
   */
  lemma DeselectAfterRemoveAllIsIgnored(app: App, env: Env, env2: Env)
    requires Valid(app.view) && env.screen.scale > 0.0 && env2.screen.scale > 0.0
    ensures var cleared := Dispatch(app, RemoveAllAnchors, env);
            Dispatch(cleared, DeselectEntity, env2).view == app.view
  {
    var cleared := Dispatch(app, RemoveAllAnchors, env);
    assert SceneOf(env2.live, cleared.registry.anchored) == map[];
  }

  /**
    Before any entity has been selected, slider commands and a deselect are
    ignored: `selectedEntity` is nil and no entity carries the empty name.
   */
  lemma CommandsBeforeSelectionIgnored(a: ARAction, env: Env)
    requires Admissible(a, env)
    requires a.ScaleEntity? || a.RotateEntity? || a.DeselectEntity?
    ensures Valid(InitApp.view)
    ensures Dispatch(InitApp, a, env) == InitApp
  {
    assert Valid(InitApp.view);
  }

  /** A single add raycasts from the screen centre; a miss there adds nothing. */
  lemma SingleAddMissAddsNothing(app: App, image: Placement.Image, env: Env)
    requires Valid(app.view) && Admissible(AddEntity(image), env)
    requires env.raycast(Placement.ScreenCentre(env.screen)).None?
    ensures Dispatch(app, AddEntity(image), env) == app
  {
  }
}

=== FILE: image_handler.dfy ===
/**
  `ImageHandler.convertPixelToPoint`: a rectangle given in the pixels of a
  reference image is rescaled to screen points. The screen's size in points
  and its pixel density (`UIScreen.main.bounds` and `.scale`) are parameters.
 */
module ImageHandler {

  /** A rectangle as the source passes it around: a dictionary keyed by "x", "y", "width", "height". */
  type Frame = map<string, real>

  const RectKeys: set<string> := {"x", "y", "width", "height"}

  predicate HasRectKeys(f: Frame) {
    "x" in f && "y" in f && "width" in f && "height" in f
  }

  /** The main screen: bounds in points and the points-to-pixels factor (always positive on a device). */
  datatype Screen = Screen(widthPts: real, heightPts: real, scale: real)

  /** One value of the source's conversion: `(v * (screenPts * density / imageSize)) / density`. */
  function Rescale(v: real, pts: real, density: real, imageSize: real): real
    requires density > 0.0 && imageSize != 0.0
  {
    (v * ((pts * density) / imageSize)) / density
  }

  /** The density cancels: the conversion is scaling by screen points over image size. */
  lemma DensityCancels(v: real, pts: real, density: real, imageSize: real)
    requires density > 0.0 && imageSize != 0.0
    ensures Rescale(v, pts, density, imageSize) == v * pts / imageSize
  {
    var k := pts / imageSize;
    assert (pts * density) / imageSize == k * density;
    assert v * (k * density) == (v * k) * density;
    assert ((v * k) * density) / density == v * k;
    assert v * k == v * pts / imageSize;
  }

  /**
    Horizontal values are scaled by screen width over image width and
    vertical ones by screen height over image height; the result has exactly
    the four rectangle keys. The input keys are force-unwrapped in the source.
   */
  function ConvertPixelToPoint(frame: Frame, imageWidth: real, imageHeight: real, screen: Screen): (r: Frame)
    requires HasRectKeys(frame)
    requires imageWidth != 0.0 && imageHeight != 0.0 && screen.scale > 0.0
    ensures r.Keys == RectKeys
    ensures r["x"] == frame["x"] * screen.widthPts / imageWidth
    ensures r["width"] == frame["width"] * screen.widthPts / imageWidth
    ensures r["y"] == frame["y"] * screen.heightPts / imageHeight
    ensures r["height"] == frame["height"] * screen.heightPts / imageHeight
  {
    var scaledX := Rescale(frame["x"], screen.widthPts, screen.scale, imageWidth);
    var scaledY := Rescale(frame["y"], screen.heightPts, screen.scale, imageHeight);
    var scaledWidth := Rescale(frame["width"], screen.widthPts, screen.scale, imageWidth);
    var scaledHeight := Rescale(frame["height"], screen.heightPts, screen.scale, imageHeight);
    DensityCancels(frame["x"], screen.widthPts, screen.scale, imageWidth);
    DensityCancels(frame["width"], screen.widthPts, screen.scale, imageWidth);
    DensityCancels(frame["y"], screen.heightPts, screen.scale, imageHeight);
    DensityCancels(frame["height"], screen.heightPts, screen.scale, imageHeight);
    map["x" := scaledX, "y" := scaledY, "width" := scaledWidth, "height" := scaledHeight]
  }

  /** The reverse mapping, from screen points back to image pixels. */
  function ConvertPointToPixel(frame: Frame, imageWidth: real, imageHeight: real, screen: Screen): (r: Frame)
    requires HasRectKeys(frame)
    requires screen.widthPts != 0.0 && screen.heightPts != 0.0
    ensures r.Keys == RectKeys
  {
    map["x" := frame["x"] * imageWidth / screen.widthPts,
        "y" := frame["y"] * imageHeight / screen.heightPts,
        "width" := frame["width"] * imageWidth / screen.widthPts,
        "height" := frame["height"] * imageHeight / screen.heightPts]
  }

  lemma ScaleBack(v: real, a: real, b: real)
    requires a != 0.0 && b != 0.0
    ensures (v * b / a) * a / b == v
  {
    assert (v * b / a) * a == v * b;
  }

  /** On a non-degenerate screen, mapping to points and back gives the rectangle back. */
  lemma RoundTrip(frame: Frame, imageWidth: real, imageHeight: real, screen: Screen)
    requires HasRectKeys(frame) && frame.Keys == RectKeys
    requires imageWidth != 0.0 && imageHeight != 0.0 && screen.scale > 0.0
    requires screen.widthPts != 0.0 && screen.heightPts != 0.0
    ensures ConvertPointToPixel(ConvertPixelToPoint(frame, imageWidth, imageHeight, screen), imageWidth, imageHeight, screen) == frame
  {
    var p := ConvertPixelToPoint(frame, imageWidth, imageHeight, screen);
    var q := ConvertPointToPixel(p, imageWidth, imageHeight, screen);
    ScaleBack(frame["x"], imageWidth, screen.widthPts);
    ScaleBack(frame["width"], imageWidth, screen.widthPts);
    ScaleBack(frame["y"], imageHeight, screen.heightPts);
    ScaleBack(frame["height"], imageHeight, screen.heightPts);
    assert forall k :: k in RectKeys ==> q[k] == frame[k];
  }

  /** Right and bottom edges map to the mapped right and bottom edges. */
  lemma EdgesMap(frame: Frame, imageWidth: real, imageHeight: real, screen: Screen)
    requires HasRectKeys(frame)
    requires imageWidth != 0.0 && imageHeight != 0.0 && screen.scale > 0.0
    ensures var r := ConvertPixelToPoint(frame, imageWidth, imageHeight, screen);
            && r["x"] + r["width"] == (frame["x"] + frame["width"]) * screen.widthPts / imageWidth
            && r["y"] + r["height"] == (frame["y"] + frame["height"]) * screen.heightPts / imageHeight
  {
  }

  /** The whole image maps to the whole screen. */
  lemma FullFrameMapsToScreen(imageWidth: real, imageHeight: real, screen: Screen)
    requires imageWidth != 0.0 && imageHeight != 0.0 && screen.scale > 0.0
    ensures var full := map["x" := 0.0, "y" := 0.0, "width" := imageWidth, "height" := imageHeight];
            ConvertPixelToPoint(full, imageWidth, imageHeight, screen)
              == map["x" := 0.0, "y" := 0.0, "width" := screen.widthPts, "height" := screen.heightPts]
  {
    var full := map["x" := 0.0, "y" := 0.0, "width" := imageWidth, "height" := imageHeight];
    var r := ConvertPixelToPoint(full, imageWidth, imageHeight, screen);
    var want := map["x" := 0.0, "y" := 0.0, "width" := screen.widthPts, "height" := screen.heightPts];
    assert imageWidth * screen.widthPts / imageWidth == screen.widthPts;
    assert imageHeight * screen.heightPts / imageHeight == screen.heightPts;
    assert forall k :: k in RectKeys ==> r[k] == want[k];
  }
}

=== FILE: ledger.dfy ===
/**
  The per-entity transform ledger of CustomARView (`entityInfo`), with the
  stringly-keyed dictionary of doubles replaced by a typed record. Arithmetic
  is over `real`; floating-point rounding is not modelled.
 */
module Ledger {

  /** Entity names are generated UUID strings, so never empty. */
  type Name = s: string | s != "" witness "e"

  datatype Vec3 = Vec3(x: real, y: real, z: real)

  /** What a tap reads off a live entity: position, scale and orientation angle (radians about y). */
  datatype Pose = Pose(position: Vec3, scale: Vec3, angle: real)

  /**
    One `entityInfo` entry. The `orig*` fields are captured on the first tap;
    the `new*` fields and the uniform slider factor `scale` are what later
    interactions write and what every move is aimed at.
   */
  datatype Record = Record(
    origTranslate: Vec3,
    newTranslate: Vec3,
    origScale: Vec3,
    newScale: Vec3,
    scale: real,
    origAngle: real,
    newAngle: real)

  /** Height (metres) by which a selected frame is lifted off the wall. */
  const LiftHeight: real := 0.2

  /** `Double.pi` as used by the slider conversions. */
  const Pi: real := 3.141592653589793

  function Scaled(v: Vec3, k: real): Vec3 {
    Vec3(v.x * k, v.y * k, v.z * k)
  }

  /** The fields a record never rewrites once it exists. */
  function Originals(r: Record): (Vec3, Vec3, real) {
    (r.origTranslate, r.origScale, r.origAngle)
  }

  /** The pending scale is always the original scale times the slider factor. */
  predicate Consistent(r: Record) {
    r.newScale == Scaled(r.origScale, r.scale)
  }

  /** Every record of `a` is still in `b` with the same original fields. */
  predicate OriginalsKept(a: map<Name, Record>, b: map<Name, Record>) {
    forall n :: n in a ==> n in b && Originals(b[n]) == Originals(a[n])
  }

  /** Only the record of `n` may differ between the two ledgers. */
  predicate OthersUnchanged(a: map<Name, Record>, b: map<Name, Record>, n: Name) {
    forall m :: m in a && m != n ==> m in b && b[m] == a[m]
  }

  /** The record a first tap creates from the hit entity's live pose. */
  function Fresh(p: Pose): (r: Record)
    ensures Consistent(r)
  {
    Record(p.position, p.position, p.scale, p.scale, 1.0, p.angle, p.angle)
  }

  /**
    Creates the record of `n` from its live pose unless one exists; an
    existing record (and every other one) is left exactly as it was.
   */
  function EnsureRecord(ledger: map<Name, Record>, n: Name, p: Pose): (r: map<Name, Record>)
    ensures r.Keys == ledger.Keys + {n}
    ensures forall m :: m in ledger ==> r[m] == ledger[m]
    ensures n in ledger ==> r == ledger
    ensures n !in ledger ==> r[n].origTranslate == r[n].newTranslate == p.position
    ensures n !in ledger ==> r[n].origScale == r[n].newScale == p.scale
    ensures n !in ledger ==> r[n].origAngle == r[n].newAngle == p.angle
    ensures n !in ledger ==> r[n].scale == 1.0
    ensures OriginalsKept(ledger, r)
  {
    if n in ledger then ledger else ledger[n := Fresh(p)]
  }

  /**
    Deselection bookkeeping: the resting height is restored and a drag the
    user made while the entity was selected is captured from its live x/z.
   */
  function Lower(rec: Record, live: Vec3): (r: Record)
    ensures r.newTranslate == Vec3(live.x, rec.origTranslate.y, live.z)
    ensures r == rec.(newTranslate := r.newTranslate)
  {
    rec.(newTranslate := Vec3(live.x, rec.origTranslate.y, live.z))
  }

  /** Selection bookkeeping: the pending position is the live one, lifted by `LiftHeight`. */
  function Lift(rec: Record, pos: Vec3): (r: Record)
    ensures r.newTranslate.y - pos.y == LiftHeight
    ensures r.newTranslate.x == pos.x && r.newTranslate.z == pos.z
    ensures r == rec.(newTranslate := r.newTranslate)
  {
    rec.(newTranslate := Vec3(pos.x, pos.y + LiftHeight, pos.z))
  }

  /** Slider degrees to radians, negated so the slider turns the frame the way it feels. */
  function SliderToRadians(degrees: real): (radians: real)
    ensures RadiansToSlider(radians) == degrees
    ensures degrees > 0.0 <==> radians < 0.0
  {
    (-1.0 * degrees * Pi) / 180.0
  }

  /** The inverse conversion used to show a record's angle on the slider. */
  function RadiansToSlider(radians: real): (degrees: real)
  {
    (-1.0 * radians * 180.0) / Pi
  }

  /** `scaleEntity`'s write: the pending scale is the original scale times `factor`. */
  function ApplyScale(rec: Record, factor: real): (r: Record)
    ensures Consistent(r)
    ensures r.scale == factor
    ensures Originals(r) == Originals(rec)
    ensures r.newTranslate == rec.newTranslate && r.newAngle == rec.newAngle
  {
    rec.(scale := factor, newScale := Scaled(rec.origScale, factor))
  }

  /** `rotateEntity`'s write: the pending angle is the slider value in radians. */
  function ApplyRotation(rec: Record, degrees: real): (r: Record)
    ensures RadiansToSlider(r.newAngle) == degrees
    ensures Originals(r) == Originals(rec)
    ensures r == rec.(newAngle := r.newAngle)
  {
    rec.(newAngle := SliderToRadians(degrees))
  }

  /** A factor of 1.0 brings the pending scale back to the original one. */
  lemma ScaleOneRestores(rec: Record)
    ensures ApplyScale(rec, 1.0).newScale == rec.origScale
  {
  }

  /** Applying a slider factor is determined by the factor alone: the last one wins. */
  lemma ScaleLastWins(rec: Record, f: real, g: real)
    ensures ApplyScale(ApplyScale(rec, f), g) == ApplyScale(rec, g)
  {
  }

  /** The slider shows back exactly the angle a rotation stored, and vice versa. */
  lemma AngleRoundTrips(degrees: real, radians: real)
    ensures RadiansToSlider(SliderToRadians(degrees)) == degrees
    ensures SliderToRadians(RadiansToSlider(radians)) == radians
  {
  }

  /** Sign convention: +90 slider degrees is a quarter turn clockwise, i.e. -pi/2 radians. */
  lemma RotationSign()
    ensures SliderToRadians(90.0) == -Pi / 2.0
    ensures SliderToRadians(-90.0) == Pi / 2.0
  {
  }

  /** Creating a record twice is creating it once: the first capture of `orig*` stays. */
  lemma EnsureRecordIdempotent(ledger: map<Name, Record>, n: Name, p: Pose, q: Pose)
    ensures EnsureRecord(EnsureRecord(ledger, n, p), n, q) == EnsureRecord(ledger, n, p)
  {
  }
}

=== FILE: optional.dfy ===
/** Swift optionals (`ModelEntity?`, `URL?`, the first raycast result) as a datatype. */
module Optional {

  datatype Option<+T> = None | Some(value: T)
}

=== FILE: placement.dfy ===
/**
  Placing images on a wall: `pixelsToMeters`, the four-slot template and the
  pin centres of `addEntities`, and `addEntity` with its silent skip when the
  raycast finds no vertical surface or the image could not be saved. The
  raycast, the file write and UUID generation are parameters.
 */
module Placement {
  import opened Optional
  import opened Ledger
  import opened ImageHandler

  const Dpi: real := 300.0
  const CmPerInch: real := 2.54

  /** One axis of `pixelsToMeters`: printed at 300 dpi, in metres. */
  function ToMeters(p: real): real {
    (p * (CmPerInch / Dpi)) / 100.0
  }

  /** The inverse of `ToMeters`. */
  function ToPixels(m: real): real {
    m * 100.0 * Dpi / CmPerInch
  }

  /** `pixelsToMeters`: each axis converted on its own. */
  function PixelsToMeters(x: real, y: real): (r: (real, real))
    ensures ToPixels(r.0) == x && ToPixels(r.1) == y
    ensures x <= y <==> r.0 <= r.1
  {
    (ToMeters(x), ToMeters(y))
  }

  /** The conversion is linear: sums and multiples are preserved, and 0 pixels is 0 metres. */
  lemma MetersLinear(a: real, b: real, k: real)
    ensures ToMeters(a + b) == ToMeters(a) + ToMeters(b)
    ensures ToMeters(k * a) == k * ToMeters(a)
    ensures ToMeters(0.0) == 0.0
  {
    assert ToMeters(k * a) == k * a * (CmPerInch / Dpi) / 100.0;
  }

  /** The conversion is strictly monotone. */
  lemma MetersMonotone(a: real, b: real)
    ensures a < b <==> ToMeters(a) < ToMeters(b)
  {
  }

  /** Metres to pixels and back, and pixels to metres and back, are identities. */
  lemma MetersRoundTrip(p: real, m: real)
    ensures ToPixels(ToMeters(p)) == p
    ensures ToMeters(ToPixels(m)) == m
  {
  }

  /** The reference image the template rectangles are laid out on is 1072 x 1072 pixels. */
  const TemplateSize: real := 1072.0

  /** The four template slots, in reference-image pixels. */
  const Template: seq<Frame> := [
    map["x" := 220.0, "y" := 260.0, "width" := 120.0, "height" := 140.0],
    map["x" := 480.0, "y" := 130.0, "width" := 150.0, "height" := 200.0],
    map["x" := 480.0, "y" := 350.0, "width" := 150.0, "height" := 200.0],
    map["x" := 780.0, "y" := 250.0, "width" := 120.0, "height" := 140.0]
  ]

  datatype Point = Point(x: real, y: real)

  /** The screen centre (in points), where a single image is pinned. */
  function ScreenCentre(screen: Screen): (p: Point)
    ensures p.x + p.x == screen.widthPts && p.y + p.y == screen.heightPts
  {
    Point(screen.widthPts / 2.0, screen.heightPts / 2.0)
  }

  /**
    Where image `n` of a bulk add is pinned: the centre of template slot `n`
    mapped to screen points. The template has four slots; a fifth image would
    index past its end.
   */
  function PinLocation(n: nat, screen: Screen): (p: Point)
    requires n < |Template| && screen.scale > 0.0
    ensures var f := Template[n];
            && p.x == (f["x"] + f["width"] / 2.0) * screen.widthPts / TemplateSize
            && p.y == (f["y"] + f["height"] / 2.0) * screen.heightPts / TemplateSize
  {
    assert HasRectKeys(Template[n]);
    var pts := ConvertPixelToPoint(Template[n], TemplateSize, TemplateSize, screen);
    Point(pts["x"] + pts["width"] / 2.0, pts["y"] + pts["height"] / 2.0)
  }

  /** Every pin lies on the screen when the screen has a positive size. */
  lemma PinsOnScreen(n: nat, screen: Screen)
    requires n < |Template| && screen.scale > 0.0
    requires screen.widthPts > 0.0 && screen.heightPts > 0.0
    ensures var p := PinLocation(n, screen);
            0.0 < p.x < screen.widthPts && 0.0 < p.y < screen.heightPts
  {
    var f := Template[n];
    var cx := f["x"] + f["width"] / 2.0;
    var cy := f["y"] + f["height"] / 2.0;
    assert 0.0 < cx < TemplateSize && 0.0 < cy < TemplateSize;
    FractionBelow(cx, screen.widthPts);
    FractionBelow(cy, screen.heightPts);
  }

  lemma FractionBelow(c: real, w: real)
    requires 0.0 < c < TemplateSize && w > 0.0
    ensures 0.0 < c * w / TemplateSize < w
  {
    assert c * w < TemplateSize * w;
  }

  /** An image handed in by the picker: size in points and its scale factor. */
  datatype Image = Image(widthPts: real, heightPts: real, scale: real)

  /** A placed frame: its entity name, texture file, size in metres and the world anchor it hangs on. */
  datatype Placed = Placed(name: Name, path: string, widthM: real, heightM: real, anchor: Vec3)

  /**
    The entity registry: the `entities` list, the `entityImages` map and the
    names whose anchors are currently in the scene.
   */
  datatype Registry = Registry(entities: seq<Placed>, images: map<Name, string>, anchored: set<Name>)

  const EmptyRegistry := Registry([], map[], {})

  /**
    `addEntity`: raycast from `pin`; on a hit, save the image (`saved` is
    what the save returned) and, if that gave a path, create a frame sized
    from the image's pixels and anchor it at the hit. Any miss adds nothing.
   */
  function AddEntity(reg: Registry, image: Image, pin: Point, raycast: Point -> Option<Vec3>,
                     saved: Option<string>, name: Name): (r: Registry)
    ensures raycast(pin).None? || saved.None? ==> r == reg
    ensures raycast(pin).Some? && saved.Some? ==>
              && |r.entities| == |reg.entities| + 1
              && r.entities[..|reg.entities|] == reg.entities
              && r.images == reg.images[name := saved.value]
              && r.anchored == reg.anchored + {name}
              && (var p := r.entities[|reg.entities|];
                  && p.name == name && p.path == saved.value
                  && p.anchor == raycast(pin).value
                  && ToPixels(p.widthM) == image.widthPts * image.scale
                  && ToPixels(p.heightM) == image.heightPts * image.scale)
  {
    match raycast(pin)
    case None => reg
    case Some(hit) =>
      var size := PixelsToMeters(image.widthPts * image.scale, image.heightPts * image.scale);
      match saved
      case None => reg
      case Some(path) =>
        Registry(reg.entities + [Placed(name, path, size.0, size.1, hit)],
                 reg.images[name := path],
                 reg.anchored + {name})
  }

  /** Image `n` of a bulk add is placed: the raycast from its slot's pin hits and saving it gave a path. */
  predicate Succeeds(n: nat, screen: Screen, raycast: Point -> Option<Vec3>, saved: seq<Option<string>>)
    requires n < |Template| && n < |saved| && screen.scale > 0.0
  {
    raycast(PinLocation(n, screen)).Some? && saved[n].Some?
  }

  /**
    The indices of the images from `from` on that a bulk add places: exactly
    the successful ones, each once, in increasing order.
   */
  function Successes(images: seq<Image>, screen: Screen, raycast: Point -> Option<Vec3>,
                     saved: seq<Option<string>>, from: nat): (ns: seq<nat>)
    requires |images| <= |Template| && |saved| == |images| && from <= |images|
    requires screen.scale > 0.0
    ensures forall k :: 0 <= k < |ns| ==> from <= ns[k] < |images| && Succeeds(ns[k], screen, raycast, saved)
    ensures forall n :: from <= n < |images| && Succeeds(n, screen, raycast, saved) ==> n in ns
    ensures forall k, l :: 0 <= k < l < |ns| ==> ns[k] < ns[l]
    ensures |ns| <= |images| - from
    decreases |images| - from
  {
    if from == |images| then []
    else if Succeeds(from, screen, raycast, saved) then [from] + Successes(images, screen, raycast, saved, from + 1)
    else Successes(images, screen, raycast, saved, from + 1)
  }

  /**
    Frame `p` is the one placed for image `n`: it carries that image's name
    and saved file, is sized from that image's pixels, and hangs where the
    raycast from slot `n`'s pin hit.
   */
  predicate FromSlot(p: Placed, n: nat, images: seq<Image>, screen: Screen, raycast: Point -> Option<Vec3>,
                     saved: seq<Option<string>>, names: seq<Name>)
    requires n < |Template| && n < |images| && n < |saved| && n < |names| && screen.scale > 0.0
  {
    && p.name == names[n]
    && saved[n] == Some(p.path)
    && raycast(PinLocation(n, screen)) == Some(p.anchor)
    && ToPixels(p.widthM) == images[n].widthPts * images[n].scale
    && ToPixels(p.heightM) == images[n].heightPts * images[n].scale
  }

  /**
    The loop of `addEntities` from image `from` on: image `n` is added at the
    pin of template slot `n`. Images that miss are skipped; the others are
    appended after the existing entities.
   */
  function AddEntitiesFrom(reg: Registry, images: seq<Image>, screen: Screen, raycast: Point -> Option<Vec3>,
                           saved: seq<Option<string>>, names: seq<Name>, from: nat): (r: Registry)
    requires |images| <= |Template| && |saved| == |images| && |names| == |images| && from <= |images|
    requires screen.scale > 0.0
    ensures |r.entities| == |reg.entities| + |Successes(images, screen, raycast, saved, from)|
    ensures r.entities[..|reg.entities|] == reg.entities
    decreases |images| - from
  {
    if from == |images| then reg
    else
      var next := AddEntity(reg, images[from], PinLocation(from, screen), raycast, saved[from], names[from]);
      AddEntitiesFrom(next, images, screen, raycast, saved, names, from + 1)
  }

  /** A successful image appends its own frame; an unsuccessful one appends nothing. */
  lemma AddEntityForSlot(reg: Registry, images: seq<Image>, screen: Screen, raycast: Point -> Option<Vec3>,
                         saved: seq<Option<string>>, names: seq<Name>, n: nat)
    requires |images| <= |Template| && |saved| == |images| && |names| == |images| && n < |images|
    requires screen.scale > 0.0
    ensures var next := AddEntity(reg, images[n], PinLocation(n, screen), raycast, saved[n], names[n]);
            if Succeeds(n, screen, raycast, saved) then
              next.entities == reg.entities + [SlotFrame(n, images, screen, raycast, saved, names)]
            else next == reg
  {
  }

  /**
    The frame a successful image `n` gets, built independently of the
    registry: its name and saved file, its pixel size in metres, and the hit
    of the raycast from its slot's pin.
   */
  function SlotFrame(n: nat, images: seq<Image>, screen: Screen, raycast: Point -> Option<Vec3>,
                     saved: seq<Option<string>>, names: seq<Name>): (p: Placed)
    requires n < |Template| && n < |images| && n < |saved| && n < |names| && screen.scale > 0.0
    requires Succeeds(n, screen, raycast, saved)
  {
    var size := PixelsToMeters(images[n].widthPts * images[n].scale, images[n].heightPts * images[n].scale);
    Placed(names[n], saved[n].value, size.0, size.1, raycast(PinLocation(n, screen)).value)
  }

  /** The frame built for a successful image is that image's frame. */
  lemma SlotFrameFromSlot(n: nat, images: seq<Image>, screen: Screen, raycast: Point -> Option<Vec3>,
                          saved: seq<Option<string>>, names: seq<Name>)
    requires n < |Template| && n < |images| && n < |saved| && n < |names| && screen.scale > 0.0
    requires Succeeds(n, screen, raycast, saved)
    ensures FromSlot(SlotFrame(n, images, screen, raycast, saved, names), n, images, screen, raycast, saved, names)
  {
  }

  /** Every index in `ns` names an image that succeeds. */
  predicate AllSucceed(ns: seq<nat>, images: seq<Image>, screen: Screen, raycast: Point -> Option<Vec3>,
                       saved: seq<Option<string>>)
    requires |images| <= |Template| && |saved| == |images| && screen.scale > 0.0
  {
    forall i :: 0 <= i < |ns| ==> ns[i] < |images| && Succeeds(ns[i], screen, raycast, saved)
  }

  /** The frames of the successful images `ns`, in the order of `ns`. */
  function FramesOf(ns: seq<nat>, images: seq<Image>, screen: Screen, raycast: Point -> Option<Vec3>,
                    saved: seq<Option<string>>, names: seq<Name>): (fs: seq<Placed>)
    requires |images| <= |Template| && |saved| == |images| && |names| == |images| && screen.scale > 0.0
    requires AllSucceed(ns, images, screen, raycast, saved)
    ensures |fs| == |ns|
  {
    if ns == [] then []
    else [SlotFrame(ns[0], images, screen, raycast, saved, names)] + FramesOf(ns[1..], images, screen, raycast, saved, names)
  }

  /** The `k`-th of those frames belongs to the `k`-th index. */
  lemma {:induction false} FramesOfAt(ns: seq<nat>, images: seq<Image>, screen: Screen, raycast: Point -> Option<Vec3>,
                                      saved: seq<Option<string>>, names: seq<Name>, k: nat)
    requires |images| <= |Template| && |saved| == |images| && |names| == |images| && screen.scale > 0.0
    requires AllSucceed(ns, images, screen, raycast, saved)
    requires k < |ns|
    ensures FramesOf(ns, images, screen, raycast, saved, names)[k] == SlotFrame(ns[k], images, screen, raycast, saved, names)
  {
    if k > 0 {
      FramesOfAt(ns[1..], images, screen, raycast, saved, names, k - 1);
    }
  }

  /** The frames a bulk add appends from image `from` on: the frame of each successful image, in image order. */
  function AddedFrames(images: seq<Image>, screen: Screen, raycast: Point -> Option<Vec3>,
                       saved: seq<Option<string>>, names: seq<Name>, from: nat): (fs: seq<Placed>)
    requires |images| <= |Template| && |saved| == |images| && |names| == |images| && from <= |images|
    requires screen.scale > 0.0
    ensures |fs| == |Successes(images, screen, raycast, saved, from)|
  {
    FramesOf(Successes(images, screen, raycast, saved, from), images, screen, raycast, saved, names)
  }

  /** Peeling image `from` off the frames appended from `from` on. */
  lemma AddedFramesStep(images: seq<Image>, screen: Screen, raycast: Point -> Option<Vec3>,
                        saved: seq<Option<string>>, names: seq<Name>, from: nat)
    requires |images| <= |Template| && |saved| == |images| && |names| == |images| && from < |images|
    requires screen.scale > 0.0
    ensures var rest := AddedFrames(images, screen, raycast, saved, names, from + 1);
            AddedFrames(images, screen, raycast, saved, names, from)
              == if Succeeds(from, screen, raycast, saved)
                 then [SlotFrame(from, images, screen, raycast, saved, names)] + rest
                 else rest
  {
    if Succeeds(from, screen, raycast, saved) {
      AddedFramesTake(images, screen, raycast, saved, names, from);
    } else {
      assert Successes(images, screen, raycast, saved, from) == Successes(images, screen, raycast, saved, from + 1);
    }
  }

  /** A successful image `from` contributes the first of the frames appended from `from` on. */
  lemma AddedFramesTake(images: seq<Image>, screen: Screen, raycast: Point -> Option<Vec3>,
                        saved: seq<Option<string>>, names: seq<Name>, from: nat)
    requires |images| <= |Template| && |saved| == |images| && |names| == |images| && from < |images|
    requires screen.scale > 0.0
    requires Succeeds(from, screen, raycast, saved)
    ensures AddedFrames(images, screen, raycast, saved, names, from)
              == [SlotFrame(from, images, screen, raycast, saved, names)]
                 + AddedFrames(images, screen, raycast, saved, names, from + 1)
  {
    var ns := Successes(images, screen, raycast, saved, from);
    var ns' := Successes(images, screen, raycast, saved, from + 1);
    assert ns == [from] + ns';
    assert ns[0] == from && ns[1..] == ns';
  }

  /** One step of the loop: if the rest of the loop appends its frames, so does the loop from image `from`. */
  lemma AppendsStep(reg: Registry, images: seq<Image>, screen: Screen, raycast: Point -> Option<Vec3>,
                    saved: seq<Option<string>>, names: seq<Name>, from: nat)
    requires |images| <= |Template| && |saved| == |images| && |names| == |images| && from < |images|
    requires screen.scale > 0.0
    ensures var next := AddEntity(reg, images[from], PinLocation(from, screen), raycast, saved[from], names[from]);
            AddEntitiesFrom(next, images, screen, raycast, saved, names, from + 1).entities
              == next.entities + AddedFrames(images, screen, raycast, saved, names, from + 1)
            ==>
            AddEntitiesFrom(reg, images, screen, raycast, saved, names, from).entities
              == reg.entities + AddedFrames(images, screen, raycast, saved, names, from)
  {
    var next := AddEntity(reg, images[from], PinLocation(from, screen), raycast, saved[from], names[from]);
    var rest := AddedFrames(images, screen, raycast, saved, names, from + 1);
    assert AddEntitiesFrom(reg, images, screen, raycast, saved, names, from)
             == AddEntitiesFrom(next, images, screen, raycast, saved, names, from + 1);
    AddEntityForSlot(reg, images, screen, raycast, saved, names, from);
    if Succeeds(from, screen, raycast, saved) {
      var f := SlotFrame(from, images, screen, raycast, saved, names);
      AddedFramesTake(images, screen, raycast, saved, names, from);
      Reassociate(reg.entities, f, rest);
    } else {
      AddedFramesStep(images, screen, raycast, saved, names, from);
    }
  }

  /** Appending a frame and then the rest is appending both at once. */
  lemma Reassociate(a: seq<Placed>, f: Placed, b: seq<Placed>)
    ensures (a + [f]) + b == a + ([f] + b)
  {
  }

  /** The registry after a bulk add holds the earlier entities followed by exactly the added frames. */
  lemma {:induction false} AddEntitiesFromAppends(reg: Registry, images: seq<Image>, screen: Screen,
                                                  raycast: Point -> Option<Vec3>, saved: seq<Option<string>>,
                                                  names: seq<Name>, from: nat)
    requires |images| <= |Template| && |saved| == |images| && |names| == |images| && from <= |images|
    requires screen.scale > 0.0
    ensures AddEntitiesFrom(reg, images, screen, raycast, saved, names, from).entities
              == reg.entities + AddedFrames(images, screen, raycast, saved, names, from)
    decreases |images| - from
  {
    if from < |images| {
      var next := AddEntity(reg, images[from], PinLocation(from, screen), raycast, saved[from], names[from]);
      AddEntitiesFromAppends(next, images, screen, raycast, saved, names, from + 1);
      AppendsStep(reg, images, screen, raycast, saved, names, from);
    } else {
      assert AddedFrames(images, screen, raycast, saved, names, from) == [];
    }
  }

  /**
    The `k`-th frame a bulk add appends is the frame of the `k`-th successful
    image: frames follow image order, one per successful image.
   */
  lemma AddedFramesComeFromSlots(reg: Registry, images: seq<Image>, screen: Screen,
                                 raycast: Point -> Option<Vec3>, saved: seq<Option<string>>,
                                 names: seq<Name>, from: nat, k: nat)
    requires |images| <= |Template| && |saved| == |images| && |names| == |images| && from <= |images|
    requires screen.scale > 0.0
    requires k < |Successes(images, screen, raycast, saved, from)|
    ensures var r := AddEntitiesFrom(reg, images, screen, raycast, saved, names, from);
            var ns := Successes(images, screen, raycast, saved, from);
            && |reg.entities| + k < |r.entities|
            && FromSlot(r.entities[|reg.entities| + k], ns[k], images, screen, raycast, saved, names)
  {
    AddEntitiesFromAppends(reg, images, screen, raycast, saved, names, from);
    var fs := AddedFrames(images, screen, raycast, saved, names, from);
    var ns := Successes(images, screen, raycast, saved, from);
    assert (reg.entities + fs)[|reg.entities| + k] == fs[k];
    FramesOfAt(ns, images, screen, raycast, saved, names, k);
    SlotFrameFromSlot(ns[k], images, screen, raycast, saved, names);
  }

  /** `addEntities`: at most four images, one per template slot. */
  function AddEntities(reg: Registry, images: seq<Image>, screen: Screen, raycast: Point -> Option<Vec3>,
                       saved: seq<Option<string>>, names: seq<Name>): (r: Registry)
    requires |images| <= |Template| && |saved| == |images| && |names| == |images|
    requires screen.scale > 0.0
    ensures |reg.entities| <= |r.entities| <= |reg.entities| + |images|
    ensures r.entities[..|reg.entities|] == reg.entities
  {
    AddEntitiesFrom(reg, images, screen, raycast, saved, names, 0)
  }

  /** When every raycast misses, a bulk add creates nothing. */
  lemma {:induction false} AllMissesAddNothing(reg: Registry, images: seq<Image>, screen: Screen,
                                               saved: seq<Option<string>>, names: seq<Name>, from: nat)
    requires |images| <= |Template| && |saved| == |images| && |names| == |images| && from <= |images|
    requires screen.scale > 0.0
    ensures AddEntitiesFrom(reg, images, screen, p => None, saved, names, from) == reg
    decreases |images| - from
  {
    if from < |images| {
      AllMissesAddNothing(reg, images, screen, saved, names, from + 1);
    }
  }

  /**
    `removeAllAnchors` empties the scene only: the entity list, the image map
    (and the view's ledger) keep their entries.
   */
  function RemoveAllAnchors(reg: Registry): (r: Registry)
    ensures r.anchored == {}
    ensures r.entities == reg.entities && r.images == reg.images
  {
    reg.(anchored := {})
  }
}

=== FILE: selection.dfy ===
/**
  The tap-driven selection state machine of CustomARView: `handleTap`,
  `deselectEntity`, `scaleEntity`, `rotateEntity` and the animation-completion
  subscription that clears `isSwitching`. The scene is abstracted away: live
  positions arrive with each event, and every call the view makes on an
  entity (`move(to:)`, setting `scale` or `orientation`) is returned as an
  `Effect` instead of being performed.
 */
module Selection {
  import opened Optional
  import opened Ledger

  /** The observable outputs in `Settings.shared`. */
  datatype Settings = Settings(
    showEntityModal: bool,
    selectedEntityName: string,
    scale: real,
    angle: real)

  const InitialSettings := Settings(false, "", 1.0, 0.0)

  /** The target of a `move(to:)`: scale, angle about the y axis and translation. */
  datatype Transform = Transform(scale: Vec3, angle: real, translation: Vec3)

  /**
    What the view asks of the scene. Every move is a 0.5 s ease-in-out
    animation identified by its playback `handle`.
   */
  datatype Effect =
    | Move(entity: Name, target: Transform, handle: nat)
    | SetScale(entity: Name, scale: Vec3)
    | SetOrientation(entity: Name, angle: real)

  /**
    The view's state: the ledger, the three control variables, the published
    settings, the next animation handle and the handles whose completion the
    view has subscribed to (those of the moves started at the end of a tap).
   */
  datatype State = State(
    ledger: map<Name, Record>,
    isTapped: bool,
    isSwitching: bool,
    selected: Option<Name>,
    settings: Settings,
    nextHandle: nat,
    watched: set<nat>)

  const Init := State(map[], false, false, None, InitialSettings, 0, {})

  datatype Step = Step(state: State, effects: seq<Effect>)

  /** The entity a tap resolved to, with its live pose at the moment of the tap. */
  datatype Hit = Hit(name: Name, pose: Pose)

  /**
    The facts the source's force-unwraps rely on: a selected entity has a
    record, `isTapped` and `isSwitching` imply a selection, the published
    name mirrors the selection, subscribed handles were issued, and every
    record's scale fields agree.
   */
  predicate Valid(s: State) {
    && (s.selected.Some? ==> s.selected.value in s.ledger)
    && (s.isTapped ==> s.selected.Some?)
    && (s.isSwitching ==> s.selected.Some?)
    && (s.selected.Some? ==> s.settings.selectedEntityName == s.selected.value)
    && (s.selected.None? ==> s.settings.selectedEntityName == "")
    && (forall k :: k in s.watched ==> k < s.nextHandle)
    && (forall n :: n in s.ledger ==> Consistent(s.ledger[n]))
  }

  /** The modal is shown exactly while an entity is tapped. */
  predicate ModalMirrorsTap(s: State) {
    s.settings.showEntityModal == s.isTapped
  }

  /** The move to a record's pending transform. */
  function TargetOf(rec: Record): Transform {
    Transform(rec.newScale, rec.newAngle, rec.newTranslate)
  }

  /** The slider values published for a newly selected record. */
  function SliderValues(st: Settings, rec: Record): (r: Settings)
    ensures r.scale == rec.scale
    ensures SliderToRadians(r.angle) == rec.newAngle
    ensures r.showEntityModal == st.showEntityModal
    ensures r.selectedEntityName == st.selectedEntityName
  {
    AngleRoundTrips(0.0, rec.newAngle);
    st.(scale := rec.scale, angle := RadiansToSlider(rec.newAngle))
  }

  /**
    The move every entity tap ends with (aimed at the selected entity's
    pending transform) and the completion subscription it installs: the
    handle is one never subscribed to before, and it is the only new one.
   */
  function Launch(s: State, prior: seq<Effect>): (r: Step)
    requires s.selected.Some? && s.selected.value in s.ledger
    requires forall k :: k in s.watched ==> k < s.nextHandle
    ensures |r.effects| == |prior| + 1 && r.effects[..|prior|] == prior
    ensures var m := r.effects[|prior|];
            && m.Move? && m.entity == s.selected.value && m.target == TargetOf(s.ledger[s.selected.value])
            && m.handle !in s.watched
            && r.state.watched == s.watched + {m.handle}
    ensures forall k :: k in r.state.watched ==> k < r.state.nextHandle
    ensures r.state == s.(nextHandle := r.state.nextHandle, watched := r.state.watched)
  {
    var sel := s.selected.value;
    Step(s.(nextHandle := s.nextHandle + 1, watched := s.watched + {s.nextHandle}),
         prior + [Move(sel, TargetOf(s.ledger[sel]), s.nextHandle)])
  }

  /**
    A tap that hit entity `h`. `live` is the live position of the entity the
    view currently holds as selected (meaningful only when there is one); it is
    read when that entity is put down for another one. A re-tap of the selected
    entity reads the hit's own position, since the hit is that entity.
   */
  function EntityTap(s: State, h: Hit, live: Vec3): (r: Step)
    requires Valid(s)
    ensures Valid(r.state)
    ensures r.state.selected == Some(h.name)
    ensures r.state.ledger.Keys == s.ledger.Keys + {h.name}
    ensures OriginalsKept(s.ledger, r.state.ledger)
    ensures s.isSwitching ==> r.state.isSwitching
    ensures r.state.nextHandle > s.nextHandle
    ensures |r.effects| > 0 && r.effects[|r.effects| - 1].Move?
    ensures r.effects[|r.effects| - 1].entity == h.name
    ensures r.effects[|r.effects| - 1].handle in r.state.watched
  {
    var ledger := EnsureRecord(s.ledger, h.name, h.pose);
    var shown := s.settings.(selectedEntityName := h.name, showEntityModal := true);
    if s.isTapped then
      var sel := s.selected.value;
      if h.name == sel then
        // re-tapping the selected entity: put it back down where the hit found it
        var lowered := ledger[sel := Lower(ledger[sel], h.pose.position)];
        Launch(s.(ledger := lowered, isTapped := false, settings := shown.(showEntityModal := false)), [])
      else
        // tapping another entity: put the old one down, lift the new one
        var lowered := ledger[sel := Lower(ledger[sel], live)];
        var outgoing := Move(sel, TargetOf(lowered[sel]), s.nextHandle);
        var rec := Lift(lowered[h.name], h.pose.position);
        Launch(s.(ledger := lowered[h.name := rec],
                  isSwitching := true,
                  selected := Some(h.name),
                  settings := SliderValues(shown, rec),
                  nextHandle := s.nextHandle + 1),
               [outgoing])
    else
      // nothing tapped: select and lift
      var rec := Lift(ledger[h.name], h.pose.position);
      Launch(s.(ledger := ledger[h.name := rec],
                selected := Some(h.name),
                isTapped := true,
                settings := SliderValues(shown, rec)),
             [])
  }

  /**
    A tap on empty space. With an entity held as selected, its drag offset is
    captured and it is moved back to its resting height; `selectedEntity`
    itself is kept. With none, nothing happens.
   */
  function EmptyTap(s: State, live: Vec3): (r: Step)
    requires Valid(s)
    ensures Valid(r.state)
    ensures r.state.selected == s.selected && r.state.isSwitching == s.isSwitching
    ensures r.state.ledger.Keys == s.ledger.Keys
    ensures OriginalsKept(s.ledger, r.state.ledger)
    ensures s.selected.None? ==> r == Step(s, [])
    ensures s.selected.Some? ==> !r.state.isTapped && !r.state.settings.showEntityModal
    ensures r.state.watched == s.watched
  {
    if s.selected.None? then Step(s, [])
    else
      var sel := s.selected.value;
      var prev := s.ledger[sel];
      var rec := prev.(newTranslate := Vec3(live.x, prev.newTranslate.y, live.z));
      var target := Transform(rec.newScale, rec.newAngle, Vec3(rec.newTranslate.x, rec.origTranslate.y, rec.newTranslate.z));
      Step(s.(ledger := s.ledger[sel := rec],
              isTapped := false,
              settings := s.settings.(showEntityModal := false),
              nextHandle := s.nextHandle + 1),
           [Move(sel, target, s.nextHandle)])
  }

  /** `handleTap`: the external hit test resolved the tap to `hit`, or to nothing. */
  function Tap(s: State, hit: Option<Hit>, live: Vec3): (r: Step)
    requires Valid(s)
    ensures Valid(r.state)
    ensures OriginalsKept(s.ledger, r.state.ledger)
    ensures s.isSwitching ==> r.state.isSwitching
  {
    match hit
    case None => EmptyTap(s, live)
    case Some(h) => EntityTap(s, h, live)
  }

  /**
    `deselectEntity`, sent when the modal is dragged down. The entity is looked
    up in `scene` (name to live position) by the published name; when found,
    the selected entity is put down as on a re-tap. Otherwise nothing happens.
   */
  function Deselect(s: State, scene: map<Name, Vec3>): (r: Step)
    requires Valid(s)
    ensures Valid(r.state)
    ensures r.state.selected == s.selected && r.state.isSwitching == s.isSwitching
    ensures r.state.ledger.Keys == s.ledger.Keys
    ensures OriginalsKept(s.ledger, r.state.ledger)
    ensures s.settings.selectedEntityName !in scene ==> r == Step(s, [])
    ensures s.settings.selectedEntityName in scene ==> !r.state.isTapped && !r.state.settings.showEntityModal
    ensures r.state.watched == s.watched
  {
    var name := s.settings.selectedEntityName;
    if name in scene then
      var sel := s.selected.value;
      var rec := Lower(s.ledger[sel], scene[name]);
      Step(s.(ledger := s.ledger[sel := rec],
              isTapped := false,
              settings := s.settings.(showEntityModal := false),
              nextHandle := s.nextHandle + 1),
           [Move(sel, TargetOf(rec), s.nextHandle)])
    else
      Step(s, [])
  }

  /** `scaleEntity`: ignored while switching or with nothing held as selected. */
  function Scale(s: State, factor: real): (r: Step)
    requires Valid(s)
    ensures Valid(r.state)
    ensures r.state.ledger.Keys == s.ledger.Keys
    ensures s.isSwitching || s.selected.None? ==> r == Step(s, [])
    ensures !s.isSwitching && s.selected.Some? ==>
              && r.state.ledger[s.selected.value].newScale == Scaled(s.ledger[s.selected.value].origScale, factor)
              && r.state.ledger[s.selected.value].scale == factor
              && r.effects == [SetScale(s.selected.value, Scaled(s.ledger[s.selected.value].origScale, factor))]
    ensures r.state == s.(ledger := r.state.ledger)
    ensures s.selected.Some? ==> OthersUnchanged(s.ledger, r.state.ledger, s.selected.value)
    ensures OriginalsKept(s.ledger, r.state.ledger)
  {
    if !s.isSwitching && s.selected.Some? then
      var sel := s.selected.value;
      var rec := ApplyScale(s.ledger[sel], factor);
      Step(s.(ledger := s.ledger[sel := rec]), [SetScale(sel, rec.newScale)])
    else
      Step(s, [])
  }

  /** `rotateEntity`: ignored while switching or with nothing held as selected. */
  function Rotate(s: State, degrees: real): (r: Step)
    requires Valid(s)
    ensures Valid(r.state)
    ensures r.state.ledger.Keys == s.ledger.Keys
    ensures s.isSwitching || s.selected.None? ==> r == Step(s, [])
    ensures !s.isSwitching && s.selected.Some? ==>
              && RadiansToSlider(r.state.ledger[s.selected.value].newAngle) == degrees
              && r.effects == [SetOrientation(s.selected.value, r.state.ledger[s.selected.value].newAngle)]
    ensures r.state == s.(ledger := r.state.ledger)
    ensures s.selected.Some? ==> OthersUnchanged(s.ledger, r.state.ledger, s.selected.value)
    ensures s.selected.Some? ==>
              var sel := s.selected.value;
              r.state.ledger[sel] == s.ledger[sel].(newAngle := r.state.ledger[sel].newAngle)
    ensures OriginalsKept(s.ledger, r.state.ledger)
  {
    if !s.isSwitching && s.selected.Some? then
      var sel := s.selected.value;
      var rec := ApplyRotation(s.ledger[sel], degrees);
      Step(s.(ledger := s.ledger[sel := rec]), [SetOrientation(sel, rec.newAngle)])
    else
      Step(s, [])
  }

  /**
    The scene reported that the animation `handle` finished. Only the
    completions the view subscribed to clear `isSwitching`.
   */
  function AnimationCompleted(s: State, handle: nat): (r: State)
    requires Valid(s)
    ensures Valid(r)
    ensures handle in s.watched ==> !r.isSwitching
    ensures handle !in s.watched ==> r == s
    ensures r == s.(isSwitching := r.isSwitching)
  {
    if handle in s.watched then s.(isSwitching := false) else s
  }
}

=== FILE: selection_lemmas.dfy ===
/**
  One-step properties of the selection state machine: what each branch of
  `handleTap`, `deselectEntity`, `scaleEntity` and `rotateEntity` does to the
  ledger, the control variables and the published settings.
 */
module SelectionLemmas {
  import opened Optional
  import opened Ledger
  import opened Selection

  /**
    The first tap on an entity creates its record from its live pose with
    slider factor 1.0; of the pending fields only the translation is then
    rewritten (the frame is lifted).
   */
  lemma FirstTapCreatesRecord(s: State, h: Hit, live: Vec3)
    requires Valid(s) && h.name !in s.ledger
    ensures var rec := EntityTap(s, h, live).state.ledger[h.name];
            && Originals(rec) == (h.pose.position, h.pose.scale, h.pose.angle)
            && rec.newScale == h.pose.scale
            && rec.newAngle == h.pose.angle
            && rec.scale == 1.0
            && rec.newTranslate == Vec3(h.pose.position.x, h.pose.position.y + LiftHeight, h.pose.position.z)
  {
  }

  /** A tap on an entity that already has a record leaves its original fields alone. */
  lemma LaterTapKeepsOriginals(s: State, h: Hit, live: Vec3)
    requires Valid(s) && h.name in s.ledger
    ensures Originals(EntityTap(s, h, live).state.ledger[h.name]) == Originals(s.ledger[h.name])
  {
  }

  /**
    Tapping an entity while nothing is tapped selects it, lifts it from its
    live position, shows the modal with the record's slider values and moves
    the entity there, subscribing to that move's completion. A record that
    already existed keeps its stored scale, factor and angle, so the sliders
    show what was last set.
   */
  lemma TapWhenNothingTapped(s: State, h: Hit, live: Vec3)
    requires Valid(s) && !s.isTapped
    ensures var r := EntityTap(s, h, live);
            var rec := r.state.ledger[h.name];
            && r.state.selected == Some(h.name)
            && r.state.isTapped
            && r.state.isSwitching == s.isSwitching
            && rec.newTranslate == Vec3(h.pose.position.x, h.pose.position.y + LiftHeight, h.pose.position.z)
            && r.state.settings == Settings(true, h.name, rec.scale, RadiansToSlider(rec.newAngle))
            && OthersUnchanged(s.ledger, r.state.ledger, h.name)
            && (h.name in s.ledger ==> rec == s.ledger[h.name].(newTranslate := rec.newTranslate))
            && r.effects == [Move(h.name, TargetOf(rec), s.nextHandle)]
            && r.state.watched == s.watched + {s.nextHandle}
  {
  }

  /**
    Re-tapping the selected entity hides the modal and clears `isTapped`; the
    record gets its resting height back and the x/z where the hit found it;
    its move is the only new subscription. The selection
    itself, `isSwitching` and the slider values are kept.
   */
  lemma RetapSelected(s: State, h: Hit, live: Vec3)
    requires Valid(s) && s.isTapped && s.selected == Some(h.name)
    ensures var r := EntityTap(s, h, live);
            && !r.state.isTapped
            && !r.state.settings.showEntityModal
            && r.state.selected == s.selected
            && r.state.isSwitching == s.isSwitching
            && r.state.settings.scale == s.settings.scale
            && r.state.settings.angle == s.settings.angle
            && r.state.ledger == s.ledger[h.name := Lower(s.ledger[h.name], h.pose.position)]
            && r.effects == [Move(h.name, TargetOf(Lower(s.ledger[h.name], h.pose.position)), s.nextHandle)]
            && r.state.watched == s.watched + {s.nextHandle}
  {
  }

  /**
    Tapping a different entity while one is tapped puts the old one down
    (resting height, live x/z, nothing else changed), enters switching,
    selects and lifts the new one, reusing its stored scale and angle. Third
    records are untouched. Two moves are started; only the second, the new
    entity's, is subscribed to.
   */
  lemma SwitchToOtherEntity(s: State, h: Hit, live: Vec3)
    requires Valid(s) && s.isTapped && s.selected.Some? && s.selected.value != h.name
    ensures var r := EntityTap(s, h, live);
            var prev := s.selected.value;
            var rec := r.state.ledger[h.name];
            && r.state.isSwitching
            && r.state.isTapped
            && r.state.selected == Some(h.name)
            && r.state.ledger[prev] == Lower(s.ledger[prev], live)
            && rec.newTranslate == Vec3(h.pose.position.x, h.pose.position.y + LiftHeight, h.pose.position.z)
            && r.state.settings == Settings(true, h.name, rec.scale, RadiansToSlider(rec.newAngle))
            && (h.name in s.ledger ==> rec == s.ledger[h.name].(newTranslate := rec.newTranslate))
            && (forall m :: m in s.ledger && m != prev && m != h.name ==> r.state.ledger[m] == s.ledger[m])
            && r.effects == [Move(prev, TargetOf(Lower(s.ledger[prev], live)), s.nextHandle),
                             Move(h.name, TargetOf(rec), s.nextHandle + 1)]
            && s.nextHandle !in r.state.watched
            && r.state.watched == s.watched + {s.nextHandle + 1}
  {
  }

  /**
    During a switch, the completion of the outgoing entity's move does not
    end the switch; the completion of the incoming entity's move does.
   */
  lemma SwitchEndsOnIncomingCompletion(s: State, h: Hit, live: Vec3)
    requires Valid(s) && s.isTapped && s.selected.Some? && s.selected.value != h.name
    ensures var r := EntityTap(s, h, live);
            && |r.effects| == 2
            && AnimationCompleted(r.state, r.effects[0].handle).isSwitching
            && !AnimationCompleted(r.state, r.effects[1].handle).isSwitching
  {
    SwitchToOtherEntity(s, h, live);
  }

  /**
    Tapping empty space with an entity held as selected captures its live
    x/z (its pending y is left as it was), hides the modal and moves it to
    its resting height. Nothing else in the ledger changes.
   */
  lemma EmptyTapPutsDown(s: State, live: Vec3)
    requires Valid(s) && s.selected.Some?
    ensures var r := EmptyTap(s, live);
            var sel := s.selected.value;
            var prev := s.ledger[sel];
            var rec := r.state.ledger[sel];
            && rec == prev.(newTranslate := Vec3(live.x, prev.newTranslate.y, live.z))
            && OthersUnchanged(s.ledger, r.state.ledger, sel)
            && r.state.selected == s.selected
            && r.effects == [Move(sel, Transform(rec.newScale, rec.newAngle, Vec3(live.x, prev.origTranslate.y, live.z)), s.nextHandle)]
            && r.state.settings == s.settings.(showEntityModal := false)
  {
  }

  /**
    An explicit deselect, when the published name is found in the scene, puts
    the selected entity down as a re-tap does, using the found entity's live
    position.
   */
  lemma DeselectPutsDown(s: State, scene: map<Name, Vec3>)
    requires Valid(s) && s.settings.selectedEntityName in scene
    ensures s.selected.Some?
    ensures var r := Deselect(s, scene);
            var sel := s.selected.value;
            var rec := Lower(s.ledger[sel], scene[sel]);
            && r.state.ledger == s.ledger[sel := rec]
            && r.state.settings == s.settings.(showEntityModal := false)
            && r.effects == [Move(sel, TargetOf(rec), s.nextHandle)]
  {
  }

  /** An active scale command with factor 1.0 restores the original scale of the selection. */
  lemma ScaleOneRestoresSelection(s: State)
    requires Valid(s) && !s.isSwitching && s.selected.Some?
    ensures var sel := s.selected.value;
            Scale(s, 1.0).state.ledger[sel].newScale == s.ledger[sel].origScale
  {
    ScaleOneRestores(s.ledger[s.selected.value]);
  }

  /**
    Publishing the slider values after selecting an entity makes the sliders
    send them back (their change handlers fire); that echo changes nothing in
    the ledger.
   */
  lemma SliderEchoHarmless(s: State, h: Hit, live: Vec3)
    requires Valid(s) && !s.isTapped && !s.isSwitching
    ensures var t := EntityTap(s, h, live).state;
            && Scale(t, t.settings.scale).state.ledger == t.ledger
            && Rotate(t, t.settings.angle).state.ledger == t.ledger
  {
    var t := EntityTap(s, h, live).state;
    var rec := t.ledger[h.name];
    assert Consistent(rec);
    AngleRoundTrips(0.0, rec.newAngle);
    assert ApplyScale(rec, rec.scale) == rec;
    assert ApplyRotation(rec, t.settings.angle) == rec;
  }
}

=== FILE: traces.dfy ===
/**
  Sequences of view events and the properties that hold along every trace:
  the force-unwrap invariant, the write-once originals, when a record exists,
  that `selectedEntity` is never cleared, and that only a subscribed animation
  completion ends a switch.
 */
module Traces {
  import opened Optional
  import opened Ledger
  import opened Selection

  /** The events the view reacts to, in the order the event loop delivers them. */
  datatype Event =
    | TapEvent(hit: Option<Hit>, live: Vec3)
    | DeselectEvent(scene: map<Name, Vec3>)
    | ScaleEvent(factor: real)
    | RotateEvent(degrees: real)
    | CompletedEvent(handle: nat)

  /** The entity names an event taps. */
  function Tapped(e: Event): set<Name> {
    if e.TapEvent? && e.hit.Some? then {e.hit.value.name} else {}
  }

  function TappedAll(es: seq<Event>): set<Name> {
    if es == [] then {} else Tapped(es[0]) + TappedAll(es[1..])
  }

  predicate IsSlider(e: Event) {
    e.ScaleEvent? || e.RotateEvent?
  }

  function Apply(s: State, e: Event): (r: State)
    requires Valid(s)
    ensures Valid(r)
    ensures r.ledger.Keys == s.ledger.Keys + Tapped(e)
    ensures OriginalsKept(s.ledger, r.ledger)
    ensures s.selected.Some? ==> r.selected.Some?
    ensures s.isSwitching && !r.isSwitching ==> e.CompletedEvent? && e.handle in s.watched
    ensures ModalMirrorsTap(s) ==> ModalMirrorsTap(r)
    ensures e.TapEvent? && e.hit.Some? ==> r.selected == Some(e.hit.value.name)
    ensures e.TapEvent? && e.hit.None? && s.selected.Some? ==> !r.isTapped
    ensures e.DeselectEvent? && s.settings.selectedEntityName in e.scene ==> !r.isTapped
    ensures e.DeselectEvent? && s.settings.selectedEntityName !in e.scene ==> r == s
    ensures e.CompletedEvent? && e.handle in s.watched ==> !r.isSwitching
    ensures e.ScaleEvent? && !s.isSwitching && s.selected.Some? ==> r.ledger[s.selected.value].scale == e.factor
    ensures e.RotateEvent? && !s.isSwitching && s.selected.Some? ==>
              RadiansToSlider(r.ledger[s.selected.value].newAngle) == e.degrees
  {
    match e
    case TapEvent(hit, live) => Tap(s, hit, live).state
    case DeselectEvent(scene) => Deselect(s, scene).state
    case ScaleEvent(factor) => Scale(s, factor).state
    case RotateEvent(degrees) => Rotate(s, degrees).state
    case CompletedEvent(handle) => AnimationCompleted(s, handle)
  }

  /** The state after delivering `es` in order. */
  function Run(s: State, es: seq<Event>): (r: State)
    requires Valid(s)
    ensures Valid(r)
    decreases |es|
  {
    if es == [] then s else Run(Apply(s, es[0]), es[1..])
  }

  lemma InitValid()
    ensures Valid(Init) && ModalMirrorsTap(Init)
  {
  }

  /** A record exists for exactly the entities that were already there or got tapped. */
  lemma {:induction false} RunLedgerKeys(s: State, es: seq<Event>)
    requires Valid(s)
    ensures Run(s, es).ledger.Keys == s.ledger.Keys + TappedAll(es)
    decreases |es|
  {
    if es != [] {
      RunLedgerKeys(Apply(s, es[0]), es[1..]);
    }
  }

  /** From the initial state, an entity has a record if and only if it has been tapped. */
  lemma RecordIffTapped(es: seq<Event>, n: Name)
    ensures n in Run(Init, es).ledger <==> n in TappedAll(es)
  {
    RunLedgerKeys(Init, es);
  }

  /** No event ever rewrites a record's original fields. */
  lemma {:induction false} RunKeepsOriginals(s: State, es: seq<Event>)
    requires Valid(s)
    ensures OriginalsKept(s.ledger, Run(s, es).ledger)
    decreases |es|
  {
    if es != [] {
      var t := Apply(s, es[0]);
      RunKeepsOriginals(t, es[1..]);
    }
  }

  /** Once an entity is held as selected, some entity stays held as selected forever. */
  lemma {:induction false} SelectionNeverCleared(s: State, es: seq<Event>)
    requires Valid(s) && s.selected.Some?
    ensures Run(s, es).selected.Some?
    decreases |es|
  {
    if es != [] {
      SelectionNeverCleared(Apply(s, es[0]), es[1..]);
    }
  }

  /** While switching, any burst of slider commands changes nothing at all. */
  lemma {:induction false} SwitchingIgnoresSliders(s: State, es: seq<Event>)
    requires Valid(s) && s.isSwitching
    requires forall i :: 0 <= i < |es| ==> IsSlider(es[i])
    ensures Run(s, es) == s
    decreases |es|
  {
    if es != [] {
      assert IsSlider(es[0]);
      assert Apply(s, es[0]) == s;
      SwitchingIgnoresSliders(s, es[1..]);
    }
  }

  /** A switch only ends through the completion of a subscribed animation. */
  lemma {:induction false} SwitchEndsOnlyByCompletion(s: State, es: seq<Event>)
    requires Valid(s)
    ensures s.isSwitching && !Run(s, es).isSwitching ==> exists i :: 0 <= i < |es| && es[i].CompletedEvent?
    decreases |es|
  {
    if s.isSwitching && !Run(s, es).isSwitching {
      var t := Apply(s, es[0]);
      if t.isSwitching {
        SwitchEndsOnlyByCompletion(t, es[1..]);
        var i :| 0 <= i < |es[1..]| && es[1..][i].CompletedEvent?;
        assert es[i + 1].CompletedEvent?;
      } else {
        assert es[0].CompletedEvent?;
      }
    }
  }

  /** The published modal flag follows `isTapped` along every trace of these events. */
  lemma {:induction false} ModalFollowsTap(s: State, es: seq<Event>)
    requires Valid(s) && ModalMirrorsTap(s)
    ensures ModalMirrorsTap(Run(s, es))
    decreases |es|
  {
    if es != [] {
      ModalFollowsTap(Apply(s, es[0]), es[1..]);
    }
  }
}
